=== FILE: README.md ===
# Client-side decision logic of an image-generation web client

The client is a single-page application in front of a remote text-to-image
service. This project models the logic that the browser itself decides.
Everything else is a reply from the server.

- The shared context provider (`AppContext`). It holds the session token, the
  user, the credit balance, the favourites and generation history, the
  current image and dark mode. Every remote action runs guards in a fixed
  order: token, then credits, then image data. A failing guard makes no
  request.
- The generation page. Its submit handler checks, in order: busy, signed in,
  credit left, prompt not blank. A `prompt` query parameter can start a
  generation. A collection cached in local storage is trimmed to its newest
  ten entries once its size estimate passes 4,000,000, and the new entry is
  always appended last.
- The login / sign-up modal. The e-mail must match
  `^[^\s@]+@[^\s@]+\.[^\s@]+$`. The password needs at least six characters.
  A name is required in sign-up mode only. The balance defaults to 20 when
  the server reports a user without credits.
- The account-settings form. The password change runs three ordered checks.
  A save resets only the three password fields.
- The favourites page. Captions are cut at 50 characters with an ellipsis.
  The collection modal has guards for an empty name and for no selection.

Each operation is a pure function over immutable records.
`AppModel.Backend` fixes one reply per endpoint. An action reads the replies
of the endpoints it calls. A transition returns a `Step`: the new state, the
effects in order, and the returned value. Effects are requests sent now,
requests scheduled by a timer, navigation, storage writes and removals,
toasts (as a level only), and the dark-mode class on the document.
`NoRequest(effects)` says no effect contacts the backend.

There are eight modules. Two are shared (`Js`, `AppModel`). The rest follow the source files, and `Login.jsx` is split in two (`EmailSyntax`, `LoginForm`):

| module | file | models |
|---|---|---|
| `Js` | js.dfy | optional fields, string truthiness, the `\s` white-space class, `trim` |
| `AppModel` | model.dfy | state, server records, requests, effects, replies |
| `AppContext` | context.dfy | `src/context/AppContext.jsx` |
| `ResultPage` | result.dfy | `src/pages/Result.jsx` |
| `EmailSyntax` | email.dfy | the e-mail regular expression of `src/components/Login.jsx` |
| `LoginForm` | login.dfy | `src/components/Login.jsx` |
| `ProfilePage` | profile.dfy | `src/pages/Profile.jsx` |
| `FavoritesPage` | favorites.dfy | `src/pages/Favorites.jsx` |

## Model

| member | source | states |
|---|---|---|
| Js.Trim | src/components/Login.jsx:44 | `s.trim()` is a contiguous slice of `s`; the parts cut from either end are all white space, and a non-empty result neither starts nor ends with white space |
| Js.TrimEmptyIffBlank | src/components/Login.jsx:44-46 | `s.trim()` is empty exactly when every character of `s` is white space |
| AppContext.Initial | src/context/AppContext.jsx:9-28 | a page load starts signed out of any user, with no credit or lists; it has a token iff storage holds a non-empty one; dark mode is on iff storage holds `"true"` |
| AppContext.ToggleDarkMode | src/context/AppContext.jsx:46-57 | only dark mode changes, it is negated, and the value persisted is the one a reload reads back as the new mode |
| AppContext.ToggleTwiceRestores | src/context/AppContext.jsx:46-49 | toggling twice restores the original state |
| AppContext.ToggledModeSurvivesReload | src/context/AppContext.jsx:16-18 | the stored value, read back by the next page load, gives the mode the toggle switched to |
| AppContext.FormatFavorites | src/context/AppContext.jsx:147-152 | each record `{_id,imageUrl,prompt,createdAt}` becomes `{id,url,prompt,date}`, preserving length and order |
| AppContext.FavoritesRoundTrip | src/context/AppContext.jsx:147-152 | the server records can be recovered from the formatted favourites, in order |
| AppContext.FormatHistory | src/context/AppContext.jsx:183-188 | each record becomes `{id,image,prompt,date}`, preserving length and order |
| AppContext.HistoryRoundTrip | src/context/AppContext.jsx:183-188 | the server records can be recovered from the formatted history, in order |
| AppContext.LoadFavorites | src/context/AppContext.jsx:133-166 | no token: nothing happens; otherwise only the favourites change: to the server's list, to `[]` when the reply has none, kept on a failed request |
| AppContext.LoadHistory | src/context/AppContext.jsx:169-202 | the same for the history list |
| AppContext.FetchUserCredits | src/context/AppContext.jsx:102-118 | only the balance changes, to the reported value; a failed request changes nothing |
| AppContext.CreditsRequestSettles | src/context/AppContext.jsx:85-90 | whenever the session check or a generation sends a separate credits request, answering it sets the balance to the server's figure and changes nothing else |
| AppContext.Logout | src/context/AppContext.jsx:402-419 | token `""`, no user, credit 0, empty favourites and history; modal, dark mode, loading and current image unchanged; the stored token is removed; no request; navigation home |
| AppContext.LogoutIdempotent | src/context/AppContext.jsx:402-412 | logging out twice leaves the same state as once |
| AppContext.LogoutBlocksRemoteActions | src/context/AppContext.jsx:402-412 | after logout, generating, adding or removing a favourite makes no request and only opens the login modal |
| AppContext.VerifyUserSession | src/context/AppContext.jsx:69-99 | no token: nothing; a reported user is adopted with its credits, or a credits request is sent iff it has none; a 401 or 403 logs out; any other failure or a reply without user changes nothing |
| AppContext.CreditAfterGeneration | src/context/AppContext.jsx:246-254 | the balance becomes the reported `user.credits` when defined; otherwise it is unchanged and a credits request is sent |
| AppContext.SaveGeneration | src/context/AppContext.jsx:256-278 | the image is posted to the history first; only a successful post reloads the history; nothing but the history changes |
| AppContext.GenerationFailed | src/context/AppContext.jsx:294-309 | a 401 logs out; every other failure leaves the state as it was; no request |
| AppContext.GenerateImage | src/context/AppContext.jsx:205-313 | no token: only `showLogin` set, no request; no credit: no request, navigation to `/buy`; otherwise the generation request goes first and loading ends false; a URL is returned iff the reply has a truthy `imageUrl`, which becomes the current image with the prompt, with the credit update above, the history reloaded iff the history post succeeds, and modal, dark mode and editing flag untouched; a reply without URL navigates to `/buy` iff `creditIssue`; a failed request leaves the state as it was, or fully logged out on a 401, with loading off and no current image |
| AppContext.AddToFavorites | src/context/AppContext.jsx:316-362 | no token: only `showLogin` set, no request; image without `url` or `prompt`: no request, no change; otherwise the post goes first, only the favourites may change, and they are reloaded iff the server confirms |
| AppContext.RemoveById | src/context/AppContext.jsx:385 | no remaining favourite has the id; every other favourite keeps its multiplicity; the result is a subsequence of the old list (relative order kept), so it is exactly the filter |
| AppContext.RemoveAbsentId | src/context/AppContext.jsx:385 | removing an id no favourite has keeps the list |
| AppContext.RemoveIdempotent | src/context/AppContext.jsx:385 | removing the same id twice equals removing it once |
| AppContext.RemoveFromFavorites | src/context/AppContext.jsx:365-395 | no token: only `showLogin` set, no request; otherwise the delete goes first; on success only the favourites change, to the filtered list; on failure nothing changes |
| ResultPage.CheckSubmit | src/pages/Result.jsx:73-99 | the guards in order: busy iff loading; needs login iff not busy and no user; no credit iff those pass and credit ≤ 0; empty prompt iff those pass and the chosen prompt is blank; the prompt used is the override when truthy, else the input |
| ResultPage.HandleSubmit | src/pages/Result.jsx:73-132 | a failing guard makes no request and changes neither view nor collection (only `showLogin` when there is no user); otherwise it starts with `generateImage`'s effects and ends not loading; on success the context is exactly what `generateImage` left, the view changes only to show the URL, and the collection is saved when storage accepts it; on failure the view changes only in `loading` and the error flag, and the collection is kept |
| ResultPage.Generated | src/pages/Result.jsx:104-131 | after generation: on success the context is `generateImage`'s state with the new current image, the view changes only in `loading`, `error`, `isImageLoaded` and `image`, and the collection is saved when storage accepts it; on failure the context is `generateImage`'s state, the view changes only in `loading` and the error flag, and the collection is kept; the page itself sends no request |
| ResultPage.SaveEffects | src/pages/Result.jsx:141-159 | the updated collection is written under `collection` iff storage accepts it; a notice is shown iff the size estimate exceeds 4,000,000, even when nothing is dropped; no request |
| ResultPage.DropOldest | src/pages/Result.jsx:144-146 | the shift loop leaves the last `min(n,10)` entries in order |
| ResultPage.SaveToCollection | src/pages/Result.jsx:135-159 | the new entry is last; at or below 4,000,000 every existing entry is kept; above it the kept entries are the last `min(n,10)` in order and the result has at most 11 |
| ResultPage.SavedCollectionKeepsOrder | src/pages/Result.jsx:141-158 | the saved collection is always a suffix of the old one followed by the new entry |
| ResultPage.OnUrlPrompt | src/pages/Result.jsx:59-71 | a truthy `prompt` parameter fills the input, and starts a generation iff a user is present and credit > 0 |
| ResultPage.AutoGeneratePassesGuards | src/pages/Result.jsx:63-69 | an auto-generation never fails the login or credit guard and proceeds with the URL prompt when not busy and not blank |
| EmailSyntax.ValidEmailMatchesRegex | src/components/Login.jsx:33-36 | exactly one `@`, a non-empty local part, no white space, and a domain containing a dot with a character on each side: this is exactly the strings the pattern matches |
| LoginForm.Validate | src/components/Login.jsx:29-50 | an email error iff the pattern fails; a password error iff length < 6; a name error iff sign-up mode and the name trims to empty |
| LoginForm.ValidIff | src/components/Login.jsx:44-49 | the error map is empty iff the email matches, the password has ≥ 6 characters, and the mode is login or the name is not blank |
| LoginForm.CreditsFor | src/components/Login.jsx:85-90 | the balance is the server's `credits` when defined, otherwise 20 |
| LoginForm.ReportedCreditsAgree | src/components/Login.jsx:85-90 | when the server reports `credits`, the balance an accepted login with that user takes (`OnSubmit` ends with `CreditsFor`), the session check and generation all end with that balance; when it omits them, login takes 20, while the session check and generation keep the balance and request it (cf. AppContext.jsx:85-90 and 248-254) |
| LoginForm.OnSubmit | src/components/Login.jsx:52-143 | an invalid form makes no request and leaves the context; otherwise the login or register request goes first; token, user, credit and closed modal are taken, and the token stored, iff the reply carries a token; login mode then schedules a session check and a credits request |
| ProfilePage.InitialForm | src/pages/Profile.jsx:8-14 | name and email from the user when truthy, else `''`; password fields empty |
| ProfilePage.UntouchedPasswordsSave | src/pages/Profile.jsx:8-54 | `handleSubmit` on the form as first shown saves it unchanged, and so it does after only the name or e-mail is edited (once the browser's own field checks have let the submit through) |
| ProfilePage.HandleChange | src/pages/Profile.jsx:16-21 | the named field takes the value; every other field is unchanged |
| ProfilePage.ChangeOverrides | src/pages/Profile.jsx:16-21 | writing a field's own value is a no-op; a later edit of a field overrides an earlier one |
| ProfilePage.ResetPasswords | src/pages/Profile.jsx:48-53 | the three password fields become `''`; name and e-mail keep their values |
| ProfilePage.ResetIdempotent | src/pages/Profile.jsx:48-53 | resetting the password fields twice equals resetting once |
| ProfilePage.HandleSubmit | src/pages/Profile.jsx:23-54 | an empty new password saves; otherwise rejects for length < 6, then for a mismatch, then for a missing current password; saved iff none fails; a save blanks the three password fields and keeps name and email |
| ProfilePage.SavedFormResubmits | src/pages/Profile.jsx:27-53 | a saved form passes the checks again and stays the same |
| FavoritesPage.Caption | src/pages/Favorites.jsx:85 | a falsy prompt gives `Generated image`; otherwise the caption starts with the first `min(50,len)` characters and has at most 53; the prompt itself when ≤ 50; its first 50 plus `...` when longer |
| FavoritesPage.CaptionIsPromptIff | src/pages/Favorites.jsx:85 | the caption equals the prompt iff the prompt has ≤ 50 characters, or 53 ending in `...` |
| FavoritesPage.OpenCollectionModal | src/pages/Favorites.jsx:90-93 | the clicked image is selected and the modal opened |
| FavoritesPage.HandleAddToCollection | src/pages/Favorites.jsx:13-19 | no selected image: nothing happens; otherwise one add call, the selection cleared and the modal closed |
| FavoritesPage.OpenThenAddOnce | src/pages/Favorites.jsx:13-19 | opening the modal on an image and choosing a collection adds exactly that image once and closes the modal; a second choice adds nothing |
| FavoritesPage.CreateLeavesNothingPending | src/pages/Favorites.jsx:21-31 | a named create from the opened modal creates the collection and adds the image under the new id; afterwards neither adding nor creating makes a call |
| FavoritesPage.HandleCreateCollection | src/pages/Favorites.jsx:21-31 | a name that trims to empty does nothing; otherwise the collection is created under the untrimmed name, the image is added under the new id iff one is selected, and the modal is reset |

## Left out

- Network, timing and asynchrony. Requests are effects and replies are inputs. The abort controller and its 60-second timeout are absent, as is the 500 ms re-verify timer after login; both become a failure kind or a scheduled request. React applies state updates later, so some handlers read stale values; the model applies updates at once. For example, the login toasts read the previous errors, and the favourites filter reads the list as of the last render.
- The effect keyed on `token` runs `verifyUserSession`, `loadFavorites`, `loadHistory` and `fetchUserCredits` concurrently. It runs on page load with a stored token and again whenever the token changes, so after every login and sign-up. Each call is modelled as its own transition; the effect itself and their interleaving are not.
- LoginForm.OnSubmit: its `Schedule(GetSession)` and `Schedule(GetCredits)` effects stand in for the requests the token-change effect sends. Those requests also follow a sign-up, which the model does not record. The 500 ms timer of `Login.jsx` itself calls closures captured before the new token was set, so when the modal was opened while signed out they return without a request.
- Fire-and-forget calls are recorded only as `Send`/`Schedule` effects. Their results are the separate transitions `FetchUserCredits` and `VerifyUserSession`. Awaited follow-ups are composed into the action: the favourites reload after adding, and the history post plus reload after generating.
- AppContext.FetchUserCredits: the reply's `credits` is an integer. The source would store `undefined` if the server left the field out.
- Toast texts, console logging and the animation and layout code are left out. Toasts keep only their level.
- `safeSetItem` can fail when storage is full. It then only shows a warning, and the model assumes the write succeeds.
- ResultPage.SaveToCollection: `JSON.stringify` is a function parameter `serialize`, and the size estimate is the length of its result. `Date.now()` and the ISO date are a `Clock` parameter. A parse error of the stored collection is not modelled. A failed write is the `storageAccepts` flag, which leaves the stored collection as it was.
- The collection API (`createCollection`, `addToCollection`) is not provided by the context provider. The favourites page's calls are recorded as `CollectionCall` values and not carried out. At run time, calling these undefined members would throw. `src/pages/Collections.jsx` is not part of this model for the same reason.
- FavoritesPage.HandleAddToCollection and FavoritesPage.HandleCreateCollection are unreachable in the source as written. The page also reads `collections` from the context (Favorites.jsx:7), and the provider does not supply it. Once the collection modal opens, rendering evaluates `collections.length` (Favorites.jsx:121) and throws. No error boundary catches it, so neither handler can ever run. The model states the handlers' own guards, as if the provider supplied the collection list and API.
- `handleAddToFavorites` and the image menu of the generation page, and `clearHistory` (a toast only), are not modelled.
- The rendering-only files `History.jsx`, `Navbar.jsx`, `Header.jsx`, `Home.jsx` and `App.jsx` are not part of this model.
- Only text inside the Basic Multilingual Plane is modelled. A character here is one Unicode scalar value, but JavaScript's `length` and `substring` count UTF-16 code units, so a character outside the BMP counts twice there. For example, the password `😀😀😀` has length 6 in the source, passes the six-character checks there, and fails them here. A prompt of 26 such characters is cut by the caption there but not here.
- The browser's own form checks are not modelled. The `required` attributes (Profile.jsx:110 and 125, Login.jsx:169, 175 and 180) and `type="email"` (Profile.jsx:119, Login.jsx:175) are checked before `onSubmit` fires, and a failure means the handler never runs. For example, a profile form whose user had no name or e-mail, as on a direct load of `/profile` before the session check returns, cannot be submitted. And `a@.b.c` matches the login pattern, but the browser rejects it, so no request is sent. `ProfilePage.HandleSubmit` and `LoginForm.OnSubmit` model the handlers once a submit reaches them.
- ResultPage.OnUrlPrompt: the effect behind it re-runs whenever the query string, the user or the balance changes. Signing in on a page with `?prompt=` therefore starts a generation at once. A late credits reply after a generation can start another one. These re-runs and their timing are not modelled; the function gives the decision of a single run.
- LoginForm.CreditsFor, AppContext.VerifyUserSession and AppContext.CreditAfterGeneration: a `credits` field sent as JSON `null` is modelled as absent (`None`). The source tests `credits !== undefined`, so it would store `null`. After such a login, `null <= 0` holds in JavaScript, so the source's credit guard (Result.jsx:89) stops a generation. The model takes 20 and proceeds.

=== FILE: context.dfy ===
/** The transitions of the `AppContext` provider: session restore and
    verification, the favourite and history loaders, image generation, adding
    and removing favourites, logout and the dark-mode toggle. Every remote
    action first runs its guards (token, then credits, then the image data)
    and makes no request when one fails. */
module AppContext {
  import opened Js
  import opened AppModel

  /** The credit balance `logout` leaves behind. */
  const LoggedOutCredit := 0

  // ---------------------------------------------------------------------
  // Start-up and dark mode

  /** `localStorage.getItem("darkMode") === "true" || false`. */
  predicate StoredDarkMode(stored: Option<string>) {
    stored == Some("true")
  }

  /** How `localStorage.setItem` stringifies a boolean. */
  function BoolText(b: bool): string {
    if b then "true" else "false"
  }

  /** The state a fresh page load starts from, given what local storage holds
      under `token` and `darkMode`. */
  function Initial(storedToken: Option<string>, storedDark: Option<string>): (s: AppState)
    ensures HasToken(s) <==> Truthy(storedToken)
    ensures s.darkMode <==> storedDark == Some("true")
    ensures s.user == None && s.credit == 0 && !s.showLogin && !s.loading
    ensures s.favorites == [] && s.history == [] && s.currentImage == None
  {
    AppState(
      user := None,
      showLogin := false,
      token := if storedToken.Some? then storedToken.value else "",
      credit := 0,
      loading := false,
      darkMode := StoredDarkMode(storedDark),
      history := [],
      favorites := [],
      currentImage := None,
      editingImage := false)
  }

  /** Flips dark mode, persists the new value and applies it to the page. */
  function ToggleDarkMode(s: AppState): (r: Step<()>)
    ensures r.state.darkMode == !s.darkMode
    ensures r.state == s.(darkMode := r.state.darkMode)
    ensures r.effects == [Store("darkMode", BoolText(r.state.darkMode)), DarkClass(r.state.darkMode)]
    ensures StoredDarkMode(Some(r.effects[0].value)) == r.state.darkMode
  {
    var on := !s.darkMode;
    Step(s.(darkMode := on), [Store("darkMode", BoolText(on)), DarkClass(on)], ())
  }

  /** Toggling twice gives back the state toggled from. */
  lemma ToggleTwiceRestores(s: AppState)
    ensures ToggleDarkMode(ToggleDarkMode(s).state).state == s
  {
  }

  /** What `toggleDarkMode` persists is read back as the same mode by the
      next page load. */
  lemma ToggledModeSurvivesReload(s: AppState, storedToken: Option<string>)
    ensures Initial(storedToken, Some(ToggleDarkMode(s).effects[0].value)).darkMode
            == ToggleDarkMode(s).state.darkMode
  {
  }

  // ---------------------------------------------------------------------
  // Server records to view records

  function FormatFavorite(rec: ImageRecord): Favorite {
    Favorite(rec.recordId, rec.imageUrl, rec.prompt, rec.createdAt)
  }

  /** The server record a favourite was made from. */
  function FavoriteRecord(f: Favorite): ImageRecord {
    ImageRecord(f.id, f.url, f.prompt, f.date)
  }

  /** `data.favorites.map(fav => ({id, url, prompt, date}))`. */
  function FormatFavorites(recs: seq<ImageRecord>): (r: seq<Favorite>)
    ensures |r| == |recs|
    ensures forall i :: 0 <= i < |r| ==>
      r[i].id == recs[i].recordId && r[i].url == recs[i].imageUrl
      && r[i].prompt == recs[i].prompt && r[i].date == recs[i].createdAt
  {
    if recs == [] then [] else [FormatFavorite(recs[0])] + FormatFavorites(recs[1..])
  }

  function FormatHistoryItem(rec: ImageRecord): HistoryItem {
    HistoryItem(rec.recordId, rec.imageUrl, rec.prompt, rec.createdAt)
  }

  function HistoryRecord(h: HistoryItem): ImageRecord {
    ImageRecord(h.id, h.image, h.prompt, h.date)
  }

  /** `data.history.map(item => ({id, image, prompt, date}))`. */
  function FormatHistory(recs: seq<ImageRecord>): (r: seq<HistoryItem>)
    ensures |r| == |recs|
    ensures forall i :: 0 <= i < |r| ==>
      r[i].id == recs[i].recordId && r[i].image == recs[i].imageUrl
      && r[i].prompt == recs[i].prompt && r[i].date == recs[i].createdAt
  {
    if recs == [] then [] else [FormatHistoryItem(recs[0])] + FormatHistory(recs[1..])
  }

  function FavoriteRecords(fs: seq<Favorite>): seq<ImageRecord> {
    if fs == [] then [] else [FavoriteRecord(fs[0])] + FavoriteRecords(fs[1..])
  }

  function HistoryRecords(hs: seq<HistoryItem>): seq<ImageRecord> {
    if hs == [] then [] else [HistoryRecord(hs[0])] + HistoryRecords(hs[1..])
  }

  /** Formatting loses nothing: the server records can be read back from the
      favourites in the same order. */
  lemma {:induction false} FavoritesRoundTrip(recs: seq<ImageRecord>)
    ensures FavoriteRecords(FormatFavorites(recs)) == recs
  {
    if recs != [] {
      FavoritesRoundTrip(recs[1..]);
      assert FormatFavorites(recs)[1..] == FormatFavorites(recs[1..]);
    }
  }

  lemma {:induction false} HistoryRoundTrip(recs: seq<ImageRecord>)
    ensures HistoryRecords(FormatHistory(recs)) == recs
  {
    if recs != [] {
      HistoryRoundTrip(recs[1..]);
      assert FormatHistory(recs)[1..] == FormatHistory(recs[1..]);
    }
  }

  // ---------------------------------------------------------------------
  // Loaders

  /** `loadFavorites`: replaces the favourites with the server's list, or
      with the empty list when the reply has none; a failed request keeps
      the current list. */
  function LoadFavorites(s: AppState, srv: Backend): (r: Step<()>)
    ensures r.state == s.(favorites := r.state.favorites)
    ensures !HasToken(s) ==> r.state == s && r.effects == []
    ensures HasToken(s) ==> r.effects == [Send(GetFavorites)]
    ensures HasToken(s) && srv.favorites == Ok(None) ==> r.state.favorites == []
    ensures HasToken(s) && srv.favorites.Ok? && srv.favorites.body.Some? ==>
      FavoriteRecords(r.state.favorites) == srv.favorites.body.value
    ensures srv.favorites.Failed? ==> r.state == s
  {
    if !HasToken(s) then Step(s, [], ())
    else
      var list :=
        match srv.favorites
        case Ok(Some(recs)) => (FavoritesRoundTrip(recs); FormatFavorites(recs))
        case Ok(None) => []
        case Failed(_) => s.favorites;
      Step(s.(favorites := list), [Send(GetFavorites)], ())
  }

  /** `loadHistory`, the same shape as `loadFavorites` for the history list. */
  function LoadHistory(s: AppState, srv: Backend): (r: Step<()>)
    ensures r.state == s.(history := r.state.history)
    ensures !HasToken(s) ==> r.state == s && r.effects == []
    ensures HasToken(s) ==> r.effects == [Send(GetHistory)]
    ensures HasToken(s) && srv.history == Ok(None) ==> r.state.history == []
    ensures HasToken(s) && srv.history.Ok? && srv.history.body.Some? ==>
      HistoryRecords(r.state.history) == srv.history.body.value
    ensures srv.history.Failed? ==> r.state == s
  {
    if !HasToken(s) then Step(s, [], ())
    else
      var list :=
        match srv.history
        case Ok(Some(recs)) => (HistoryRoundTrip(recs); FormatHistory(recs))
        case Ok(None) => []
        case Failed(_) => s.history;
      Step(s.(history := list), [Send(GetHistory)], ())
  }

  /** `fetchUserCredits`: takes the balance the server reports. */
  function FetchUserCredits(s: AppState, srv: Backend): (r: Step<()>)
    ensures r.state == s.(credit := r.state.credit)
    ensures !HasToken(s) ==> r.state == s && r.effects == []
    ensures HasToken(s) && srv.credits.Ok? ==> r.state.credit == srv.credits.body
    ensures srv.credits.Failed? ==> r.state == s
  {
    if !HasToken(s) then Step(s, [], ())
    else
      match srv.credits
      case Ok(c) => Step(s.(credit := c), [Send(GetCredits)], ())
      case Failed(_) => Step(s, [Send(GetCredits)], ())
  }

  // ---------------------------------------------------------------------
  // Session

  /** `logout`: forgets the token, the user, the balance and both lists,
      clears the stored token and user id, and returns to the home page. */
  function Logout(s: AppState): (r: Step<()>)
    ensures r.state.token == "" && r.state.user == None && r.state.credit == LoggedOutCredit
    ensures r.state.favorites == [] && r.state.history == []
    ensures r.state.showLogin == s.showLogin && r.state.darkMode == s.darkMode
    ensures r.state.loading == s.loading && r.state.currentImage == s.currentImage
    ensures r.state.editingImage == s.editingImage
    ensures NoRequest(r.effects)
    ensures Unstore("token") in r.effects && Navigate("/") in r.effects
  {
    Step(s.(token := "", user := None, credit := LoggedOutCredit, favorites := [], history := []),
         [Unstore("token"), Unstore("userId"), Notify(Success), Navigate("/")],
         ())
  }

  /** Logging out a second time changes nothing further. */
  lemma LogoutIdempotent(s: AppState)
    ensures Logout(Logout(s).state).state == Logout(s).state
  {
  }

  /** The credits a session reply or a generation reply reports, if any. */
  function ReportedCredits(user: Option<User>): Option<int> {
    if user.Some? then user.value.credits else None
  }

  /** `verifyUserSession`: adopts the user the server reports and its
      balance (asking for the balance separately when the user carries
      none); a 401 or 403 reply logs out; any other failure changes nothing. */
  function VerifyUserSession(s: AppState, srv: Backend): (r: Step<()>)
    ensures !HasToken(s) ==> r.state == s && r.effects == []
    ensures HasToken(s) && srv.verify.Ok? && srv.verify.body.Some? ==>
      && r.state.user == srv.verify.body
      && r.state.credit == (if srv.verify.body.value.credits.Some? then srv.verify.body.value.credits.value else s.credit)
      && (Send(GetCredits) in r.effects <==> srv.verify.body.value.credits.None?)
      && r.state == s.(user := r.state.user, credit := r.state.credit)
    ensures HasToken(s) && srv.verify == Ok(None) ==> r.state == s
    ensures (HasToken(s) && srv.verify.Failed? && srv.verify.failure.HttpError?
             && srv.verify.failure.status in {401, 403}) ==> r.state == Logout(s).state
    ensures srv.verify.Failed? && !(srv.verify.failure.HttpError? && srv.verify.failure.status in {401, 403})
            ==> r.state == s
  {
    if !HasToken(s) then Step(s, [], ())
    else
      match srv.verify
      case Ok(Some(u)) =>
        if u.credits.Some? then Step(s.(user := Some(u), credit := u.credits.value), [Send(GetSession)], ())
        else Step(s.(user := Some(u)), [Send(GetSession), Send(GetCredits)], ())
      case Ok(None) => Step(s, [Send(GetSession)], ())
      case Failed(f) =>
        if f.HttpError? && (f.status == 401 || f.status == 403) then
          var out := Logout(s);
          Step(out.state, [Send(GetSession)] + out.effects, ())
        else Step(s, [Send(GetSession)], ())
  }

  /** Whenever the session check or a generation asks for the balance
      separately, the answer to that request sets the balance to the
      server's figure and changes nothing else. */
  lemma CreditsRequestSettles(s: AppState, prompt: string, srv: Backend)
    requires srv.credits.Ok?
    ensures var v := VerifyUserSession(s, srv);
      Send(GetCredits) in v.effects ==> FetchUserCredits(v.state, srv).state == v.state.(credit := srv.credits.body)
    ensures var g := GenerateImage(s, prompt, srv);
      Send(GetCredits) in g.effects ==> FetchUserCredits(g.state, srv).state == g.state.(credit := srv.credits.body)
  {
  }

  // ---------------------------------------------------------------------
  // Image generation

  /** After a successful generation: take the balance the reply reports, or
      ask for it separately when the reply has none. */
  function CreditAfterGeneration(s: AppState, body: GenerateBody): (r: Step<()>)
    ensures ReportedCredits(body.user).Some? ==>
      r.state == s.(credit := ReportedCredits(body.user).value) && r.effects == []
    ensures ReportedCredits(body.user).None? ==> r.state == s && r.effects == [Send(GetCredits)]
  {
    if body.user.Some? && body.user.value.credits.Some? then
      Step(s.(credit := body.user.value.credits.value), [], ())
    else Step(s, [Send(GetCredits)], ())
  }

  /** Posts the new image to the server history and, when that succeeds,
      reloads the history list. A failed post is ignored. */
  function SaveGeneration(s: AppState, url: string, prompt: string, srv: Backend): (r: Step<()>)
    ensures r.state == s.(history := r.state.history)
    ensures |r.effects| > 0 && r.effects[0] == Send(PostHistory(url, prompt))
    ensures srv.saveHistory.Ok? ==> r.state == LoadHistory(s, srv).state
    ensures srv.saveHistory.Failed? ==> r.state == s && |r.effects| == 1
  {
    var post := [Send(PostHistory(url, prompt))];
    if srv.saveHistory.Ok? then
      var reload := LoadHistory(s, srv);
      Step(reload.state, post + reload.effects, ())
    else Step(s, post, ())
  }

  /** A generation request that failed: every failure is reported, and a
      401 also logs out. */
  function GenerationFailed(busy: AppState, f: Failure): (r: Step<()>)
    ensures f.HttpError? && f.status == 401 ==> r.state == Logout(busy).state
    ensures !(f.HttpError? && f.status == 401) ==> r.state == busy
    ensures NoRequest(r.effects)
  {
    if f.HttpError? && f.status == 401 then
      var out := Logout(busy);
      Step(out.state, [Notify(Error)] + out.effects, ())
    else Step(busy, [Notify(Error)], ())
  }

  /** `generateImage(prompt)`: returns the new image's URL or `None`. */
  function GenerateImage(s: AppState, prompt: string, srv: Backend): (r: Step<Option<string>>)
    ensures !HasToken(s) ==> r.state == s.(showLogin := true) && NoRequest(r.effects) && r.value == None
    ensures HasToken(s) && s.credit <= 0 ==>
      r.state == s && NoRequest(r.effects) && Navigate("/buy") in r.effects && r.value == None
    ensures HasToken(s) && s.credit > 0 ==>
      |r.effects| > 0 && r.effects[0] == Send(PostGeneration(prompt)) && !r.state.loading
    ensures r.value.Some? <==>
      HasToken(s) && s.credit > 0 && srv.generate.Ok? && Truthy(srv.generate.body.imageUrl)
    ensures r.value.Some? ==>
      && r.value == srv.generate.body.imageUrl
      && r.state.currentImage == Some(Image(r.value, Some(prompt)))
      && r.state.token == s.token && r.state.user == s.user && r.state.favorites == s.favorites
      && r.state.credit == (if ReportedCredits(srv.generate.body.user).Some?
                            then ReportedCredits(srv.generate.body.user).value else s.credit)
      && (Send(GetCredits) in r.effects <==> ReportedCredits(srv.generate.body.user).None?)
    ensures HasToken(s) && s.credit > 0 && srv.generate.Ok? && !Truthy(srv.generate.body.imageUrl) ==>
      && r.state == s.(loading := false, currentImage := None)
      && (Navigate("/buy") in r.effects <==> srv.generate.body.creditIssue)
    ensures HasToken(s) && s.credit > 0 && srv.generate.Failed? ==>
      r.state == (if srv.generate.failure.HttpError? && srv.generate.failure.status == 401
                  then Logout(s).state else s).(loading := false, currentImage := None)
    ensures r.value.Some? ==>
      && r.state.showLogin == s.showLogin && r.state.darkMode == s.darkMode
      && r.state.editingImage == s.editingImage
      && (srv.saveHistory.Ok? ==> r.state.history == LoadHistory(s, srv).state.history)
      && (srv.saveHistory.Failed? ==> r.state.history == s.history)
  {
    if !HasToken(s) then Step(s.(showLogin := true), [Notify(Warning)], None)
    else if s.credit <= 0 then Step(s, [Notify(Error), Navigate("/buy")], None)
    else
      var busy := s.(loading := true, currentImage := None);
      var sent := [Send(PostGeneration(prompt))];
      match srv.generate
      case Ok(body) =>
        if Truthy(body.imageUrl) then
          var url := body.imageUrl.value;
          var credited := CreditAfterGeneration(busy, body);
          var saved := SaveGeneration(credited.state, url, prompt, srv);
          Step(saved.state.(currentImage := Some(Image(Some(url), Some(prompt))), loading := false),
               sent + credited.effects + saved.effects,
               Some(url))
        else
          Step(busy.(loading := false),
               sent + [Notify(Error)] + (if body.creditIssue then [Navigate("/buy")] else []),
               None)
      case Failed(f) =>
        var failed := GenerationFailed(busy, f);
        Step(failed.state.(loading := false), sent + failed.effects, None)
  }

  // ---------------------------------------------------------------------
  // Favourites

  /** `!image || !image.url || !image.prompt` fails. */
  predicate ValidImage(image: Option<Image>) {
    image.Some? && Truthy(image.value.url) && Truthy(image.value.prompt)
  }

  /** `addToFavorites(image)`: creates the favourite on the server and, when
      the server confirms it, reloads the favourites. */
  function AddToFavorites(s: AppState, image: Option<Image>, srv: Backend): (r: Step<()>)
    ensures !HasToken(s) ==> r.state == s.(showLogin := true) && NoRequest(r.effects)
    ensures HasToken(s) && !ValidImage(image) ==> r.state == s && NoRequest(r.effects)
    ensures HasToken(s) && ValidImage(image) ==>
      && |r.effects| > 0
      && r.effects[0] == Send(PostFavorite(image.value.url.value, image.value.prompt.value))
      && r.state == s.(favorites := r.state.favorites)
    ensures HasToken(s) && ValidImage(image) && srv.addFavorite.Ok? && srv.addFavorite.body.favorite ==>
      r.state == LoadFavorites(s, srv).state
    ensures !(srv.addFavorite.Ok? && srv.addFavorite.body.favorite) ==> r.state.favorites == s.favorites
  {
    if !HasToken(s) then Step(s.(showLogin := true), [Notify(Warning)], ())
    else if !ValidImage(image) then Step(s, [Notify(Error)], ())
    else
      var sent := [Send(PostFavorite(image.value.url.value, image.value.prompt.value))];
      match srv.addFavorite
      case Ok(body) =>
        if body.favorite then
          var reload := LoadFavorites(s, srv);
          Step(reload.state, sent + reload.effects + [Notify(Success)], ())
        else Step(s, sent + [Notify(Info)], ())
      case Failed(_) => Step(s, sent + [Notify(Error)], ())
  }

  /** `b` is obtained from `a` by deleting elements. */
  ghost predicate Subsequence<T>(b: seq<T>, a: seq<T>)
    decreases |a|
  {
    |b| == 0 || (|a| > 0 && ((b[0] == a[0] && Subsequence(b[1..], a[1..])) || Subsequence(b, a[1..])))
  }

  /** `favorites.filter(fav => fav.id !== favoriteId)`. */
  function RemoveById(favs: seq<Favorite>, favoriteId: string): (r: seq<Favorite>)
    ensures forall i :: 0 <= i < |r| ==> r[i].id != favoriteId
    ensures forall f: Favorite :: f.id != favoriteId ==> multiset(r)[f] == multiset(favs)[f]
    ensures Subsequence(r, favs)
  {
    if favs == [] then []
    else if favs[0].id != favoriteId then
      var rest := RemoveById(favs[1..], favoriteId);
      assert favs == [favs[0]] + favs[1..];
      assert ([favs[0]] + rest)[1..] == rest;
      [favs[0]] + rest
    else
      assert favs == [favs[0]] + favs[1..];
      RemoveById(favs[1..], favoriteId)
  }

  /** Removing an id no favourite has keeps the list as it is. */
  lemma {:induction false} RemoveAbsentId(favs: seq<Favorite>, favoriteId: string)
    requires forall i :: 0 <= i < |favs| ==> favs[i].id != favoriteId
    ensures RemoveById(favs, favoriteId) == favs
  {
    if favs != [] {
      RemoveAbsentId(favs[1..], favoriteId);
    }
  }

  /** Removing the same id twice is the same as removing it once. */
  lemma RemoveIdempotent(favs: seq<Favorite>, favoriteId: string)
    ensures RemoveById(RemoveById(favs, favoriteId), favoriteId) == RemoveById(favs, favoriteId)
  {
    RemoveAbsentId(RemoveById(favs, favoriteId), favoriteId);
  }

  /** `removeFromFavorites(favoriteId)`: deletes on the server and, once the
      server accepts, drops the favourite from the local list. */
  function RemoveFromFavorites(s: AppState, favoriteId: string, srv: Backend): (r: Step<()>)
    ensures !HasToken(s) ==> r.state == s.(showLogin := true) && NoRequest(r.effects)
    ensures HasToken(s) ==> |r.effects| > 0 && r.effects[0] == Send(DeleteFavorite(favoriteId))
    ensures HasToken(s) && srv.deleteFavorite.Ok? ==>
      && r.state == s.(favorites := r.state.favorites)
      && (forall i :: 0 <= i < |r.state.favorites| ==> r.state.favorites[i].id != favoriteId)
      && r.state.favorites == RemoveById(s.favorites, favoriteId)
    ensures HasToken(s) && srv.deleteFavorite.Failed? ==> r.state == s
  {
    if !HasToken(s) then Step(s.(showLogin := true), [Notify(Warning)], ())
    else
      var sent := [Send(DeleteFavorite(favoriteId))];
      if srv.deleteFavorite.Ok? then
        Step(s.(favorites := RemoveById(s.favorites, favoriteId)), sent + [Notify(Success)], ())
      else Step(s, sent + [Notify(Error)], ())
  }

  // ---------------------------------------------------------------------
  // Cross-cutting guarantees

  /** After `logout` every remote action is refused before it reaches the
      backend and only opens the login modal. */
  lemma LogoutBlocksRemoteActions(s: AppState, prompt: string, image: Option<Image>, favoriteId: string, srv: Backend)
    ensures var out := Logout(s).state;
      && GenerateImage(out, prompt, srv).state == out.(showLogin := true)
      && NoRequest(GenerateImage(out, prompt, srv).effects)
      && AddToFavorites(out, image, srv).state == out.(showLogin := true)
      && NoRequest(AddToFavorites(out, image, srv).effects)
      && RemoveFromFavorites(out, favoriteId, srv).state == out.(showLogin := true)
      && NoRequest(RemoveFromFavorites(out, favoriteId, srv).effects)
  {
  }
}

=== FILE: email.dfy ===
/** The e-mail syntax the login form accepts: the regular expression
    `^[^\s@]+@[^\s@]+\.[^\s@]+$`, stated as the split of the address it
    demands, and an executable check that describes the same set of strings
    as "exactly one `@`, a non-empty local part, a domain with a dot that
    has a character on each side, and no white space anywhere". */
module EmailSyntax {
  import opened Js

  /** A run matched by `[^\s@]+` (without the `+`): no white space, no `@`. */
  predicate Plain(t: string) {
    forall i :: 0 <= i < |t| ==> !IsSpace(t[i]) && t[i] != '@'
  }

  /** The regular expression, read as a split: `s[a]` is the `@`, `s[d]` the
      literal dot, and the three runs around them are non-empty and plain. */
  ghost predicate EmailRegex(s: string) {
    exists a, d :: 0 < a && a + 1 < d && d + 1 < |s| && s[a] == '@' && s[d] == '.'
                   && Plain(s[..a]) && Plain(s[a + 1..d]) && Plain(s[d + 1..])
  }

  /** Number of occurrences of `c` in `s`. */
  function Count(s: string, c: char): nat {
    if s == [] then 0 else (if s[0] == c then 1 else 0) + Count(s[1..], c)
  }

  /** Index of the first `c` in `s`, or `|s|` when there is none. */
  function Find(s: string, c: char): (i: nat)
    ensures i <= |s|
    ensures forall j :: 0 <= j < i ==> s[j] != c
    ensures i < |s| ==> s[i] == c
  {
    if s == [] then 0 else if s[0] == c then 0 else 1 + Find(s[1..], c)
  }

  /** The domain has a `.` with at least one character before and after it. */
  predicate InnerDot(domain: string) {
    exists k :: 0 < k < |domain| - 1 && domain[k] == '.'
  }

  /** The executable check. */
  predicate ValidEmail(s: string) {
    var a := Find(s, '@');
    && Count(s, '@') == 1
    && 0 < a < |s|
    && NoSpace(s)
    && InnerDot(s[a + 1..])
  }

  lemma {:induction false} CountSplit(s: string, k: nat, c: char)
    requires k <= |s|
    ensures Count(s, c) == Count(s[..k], c) + Count(s[k..], c)
  {
    if k > 0 {
      CountSplit(s[1..], k - 1, c);
      assert s[1..][..k - 1] == s[..k][1..];
      assert s[1..][k - 1..] == s[k..];
    }
  }

  lemma {:induction false} CountZero(s: string, c: char)
    ensures Count(s, c) == 0 <==> forall i :: 0 <= i < |s| ==> s[i] != c
  {
    if s != [] {
      CountZero(s[1..], c);
      if Count(s, c) == 0 {
        forall i | 0 <= i < |s| ensures s[i] != c {
          if i > 0 { assert s[i] == s[1..][i - 1]; }
        }
      } else if s[0] != c {
        var i :| 0 <= i < |s[1..]| && s[1..][i] == c;
        assert s[i + 1] == c;
      }
    }
  }

  /** With the first `@` at `a`, exactly one `@` means none after `a`. */
  lemma OneAt(s: string, a: nat)
    requires a < |s| && s[a] == '@'
    requires forall j :: 0 <= j < a ==> s[j] != '@'
    ensures Count(s, '@') == 1 <==> forall j :: a < j < |s| ==> s[j] != '@'
  {
    CountSplit(s, a, '@');
    CountZero(s[..a], '@');
    assert s[a..][1..] == s[a + 1..];
    CountZero(s[a + 1..], '@');
    if forall j :: a < j < |s| ==> s[j] != '@' {
    } else {
      var j :| a < j < |s| && s[j] == '@';
      assert s[a + 1..][j - a - 1] == '@';
    }
  }

  lemma ValidEmailIsRegex(s: string)
    requires ValidEmail(s)
    ensures EmailRegex(s)
  {
    var a := Find(s, '@');
    OneAt(s, a);
    var dom := s[a + 1..];
    var k :| 0 < k < |dom| - 1 && dom[k] == '.';
    var d := a + 1 + k;
    assert s[d] == '.';
    assert Plain(s[..a]);
    var mid, tail := s[a + 1..d], s[d + 1..];
    forall i | 0 <= i < |mid| ensures !IsSpace(mid[i]) && mid[i] != '@' {
      assert mid[i] == s[a + 1 + i];
    }
    forall i | 0 <= i < |tail| ensures !IsSpace(tail[i]) && tail[i] != '@' {
      assert tail[i] == s[d + 1 + i];
    }
  }

  lemma RegexIsValidEmail(s: string)
    requires EmailRegex(s)
    ensures ValidEmail(s)
  {
    var a, d :| 0 < a && a + 1 < d && d + 1 < |s| && s[a] == '@' && s[d] == '.'
                && Plain(s[..a]) && Plain(s[a + 1..d]) && Plain(s[d + 1..]);
    forall j | 0 <= j < a ensures s[j] != '@' && !IsSpace(s[j]) {
      assert s[..a][j] == s[j];
    }
    forall j | a < j < |s| ensures s[j] != '@' {
      if j < d { assert s[a + 1..d][j - a - 1] == s[j]; }
      else if j > d { assert s[d + 1..][j - d - 1] == s[j]; }
    }
    forall j | 0 <= j < |s| ensures !IsSpace(s[j]) {
      if a < j < d { assert s[a + 1..d][j - a - 1] == s[j]; }
      else if j > d { assert s[d + 1..][j - d - 1] == s[j]; }
    }
    assert Find(s, '@') == a;
    OneAt(s, a);
    assert s[a + 1..][d - a - 1] == '.';
  }

  /** The executable check accepts exactly the strings the regular
      expression matches. */
  lemma ValidEmailMatchesRegex(s: string)
    ensures ValidEmail(s) <==> EmailRegex(s)
  {
    if ValidEmail(s) { ValidEmailIsRegex(s); }
    if EmailRegex(s) { RegexIsValidEmail(s); }
  }
}

=== FILE: favorites.dfy ===
/** The favourites page: the caption under each image and the guards of the
    collection modal. The collection operations themselves (`createCollection`,
    `addToCollection`) are outside this client's context provider, so the
    calls the page makes are recorded, not carried out. */
module FavoritesPage {
  import opened Js
  import opened AppModel

  const CaptionLimit := 50
  const Ellipsis := "..."
  const FallbackCaption := "Generated image"

  /** `image.prompt ? image.prompt.substring(0, 50) + (image.prompt.length > 50 ? '...' : '') : 'Generated image'`. */
  function Caption(prompt: Option<string>): (c: string)
    ensures !Truthy(prompt) ==> c == FallbackCaption
    ensures Truthy(prompt) ==> prompt.value[..Min(CaptionLimit, |prompt.value|)] <= c
    ensures Truthy(prompt) ==> |c| <= CaptionLimit + |Ellipsis|
    ensures Truthy(prompt) && |prompt.value| <= CaptionLimit ==> c == prompt.value
    ensures Truthy(prompt) && |prompt.value| > CaptionLimit ==>
      c == prompt.value[..CaptionLimit] + Ellipsis && |c| == CaptionLimit + |Ellipsis|
  {
    if !Truthy(prompt) then FallbackCaption
    else
      var p := prompt.value;
      var head := p[..Min(CaptionLimit, |p|)];
      head + (if |p| > CaptionLimit then Ellipsis else "")
  }

  /** The caption shows the prompt unchanged exactly when the prompt fits, or
      when it is 53 characters long and already ends in the ellipsis. */
  lemma CaptionIsPromptIff(prompt: Option<string>)
    requires Truthy(prompt)
    ensures Caption(prompt) == prompt.value <==>
      |prompt.value| <= CaptionLimit
      || (|prompt.value| == CaptionLimit + |Ellipsis| && prompt.value[CaptionLimit..] == Ellipsis)
  {
    var p := prompt.value;
    if |p| > CaptionLimit && |p| == CaptionLimit + |Ellipsis| && p[CaptionLimit..] == Ellipsis {
      assert p == p[..CaptionLimit] + p[CaptionLimit..];
    }
    if Caption(prompt) == p && |p| > CaptionLimit {
      assert p[CaptionLimit..] == Caption(prompt)[CaptionLimit..];
    }
  }

  /** Calls into the collection API. */
  datatype CollectionCall =
    | CreateCollection(name: string)
    | AddToCollection(collectionId: string, image: Favorite)

  /** The page's modal state. */
  datatype View = View(selected: Option<Favorite>, showModal: bool, newName: string)

  /** What a handler did: the modal state afterwards and its calls in order. */
  datatype Handled = Handled(view: View, calls: seq<CollectionCall>)

  /** The collection button on an image: selects it and opens the modal. */
  function OpenCollectionModal(v: View, image: Favorite): (r: View)
    ensures r.selected == Some(image) && r.showModal && r.newName == v.newName
  {
    v.(selected := Some(image), showModal := true)
  }

  /** `handleAddToCollection(collectionId)`: without a selected image
      nothing happens. */
  function HandleAddToCollection(v: View, collectionId: string): (r: Handled)
    ensures v.selected.None? ==> r.view == v && r.calls == []
    ensures v.selected.Some? ==>
      && r.calls == [AddToCollection(collectionId, v.selected.value)]
      && r.view == v.(selected := None, showModal := false)
  {
    if v.selected.Some? then
      Handled(v.(selected := None, showModal := false), [AddToCollection(collectionId, v.selected.value)])
    else Handled(v, [])
  }

  /** `handleCreateCollection()`: a name that trims to empty does nothing;
      otherwise the collection is created under the untrimmed name, the
      selected image (if any) is added to it under the id `createCollection`
      returned, and the modal is reset and closed. */
  function HandleCreateCollection(v: View, createdId: string): (r: Handled)
    ensures IsBlank(v.newName) ==> r.view == v && r.calls == []
    ensures !IsBlank(v.newName) ==>
      && |r.calls| > 0 && r.calls[0] == CreateCollection(v.newName)
      && (|r.calls| == 2 <==> v.selected.Some?)
      && (v.selected.Some? ==> r.calls[1] == AddToCollection(createdId, v.selected.value))
      && r.view == View(None, false, "")
  {
    TrimEmptyIffBlank(v.newName);
    if Trim(v.newName) == "" then Handled(v, [])
    else
      var add := if v.selected.Some? then [AddToCollection(createdId, v.selected.value)] else [];
      Handled(View(None, false, ""), [CreateCollection(v.newName)] + add)
  }

  /** Opening the modal on an image and choosing a collection adds exactly
      that image, once; the modal is then closed, and a second choice adds
      nothing. */
  lemma OpenThenAddOnce(v: View, image: Favorite, first: string, second: string)
    ensures var added := HandleAddToCollection(OpenCollectionModal(v, image), first);
      && added.calls == [AddToCollection(first, image)]
      && !added.view.showModal
      && HandleAddToCollection(added.view, second).calls == []
  {
  }

  /** Creating a named collection from the opened modal creates it and adds
      the image under the new id; nothing is left pending, so neither adding
      nor creating again makes a call. */
  lemma CreateLeavesNothingPending(v: View, image: Favorite, createdId: string, other: string, laterId: string)
    requires !IsBlank(v.newName)
    ensures var created := HandleCreateCollection(OpenCollectionModal(v, image), createdId);
      && created.calls == [CreateCollection(v.newName), AddToCollection(createdId, image)]
      && HandleAddToCollection(created.view, other).calls == []
      && HandleCreateCollection(created.view, laterId).calls == []
  {
  }
}

=== FILE: js.dfy ===
/** JavaScript value conventions the client relies on: optional fields,
    truthiness of strings, the white-space class shared by the `\s` regular
    expression escape and `String.prototype.trim`, and `trim` itself.
    A character is one Unicode scalar value, so lengths and slices agree
    with JavaScript's `length` and `substring` only on text inside the Basic
    Multilingual Plane. */
module Js {

  /** A field that the server or the browser may leave `undefined`/`null`. */
  datatype Option<+T> = None | Some(value: T)

  /** A string-valued field is truthy when it is present and not empty. */
  predicate Truthy(o: Option<string>) {
    o.Some? && |o.value| > 0
  }

  function Min(a: int, b: int): int {
    if a <= b then a else b
  }

  /** ECMAScript WhiteSpace and LineTerminator code points. */
  predicate IsSpace(c: char) {
    || c == '\t' || c == '\n' || c == '\U{000B}' || c == '\U{000C}' || c == '\r'
    || c == ' ' || c == '\U{00A0}' || c == '\U{1680}'
    || ('\U{2000}' <= c <= '\U{200A}')
    || c == '\U{2028}' || c == '\U{2029}' || c == '\U{202F}' || c == '\U{205F}'
    || c == '\U{3000}' || c == '\U{FEFF}'
  }

  /** Every character of `s` is white space (true of the empty string). */
  predicate IsBlank(s: string) {
    forall i :: 0 <= i < |s| ==> IsSpace(s[i])
  }

  /** No character of `s` is white space. */
  predicate NoSpace(s: string) {
    forall i :: 0 <= i < |s| ==> !IsSpace(s[i])
  }

  /** Drops leading white space. */
  function TrimStart(s: string): (r: string)
    ensures |r| <= |s| && r == s[|s| - |r|..]
    ensures IsBlank(s[..|s| - |r|])
    ensures |r| > 0 ==> !IsSpace(r[0])
  {
    if |s| > 0 && IsSpace(s[0]) then TrimStart(s[1..]) else s
  }

  /** Drops trailing white space. */
  function TrimEnd(s: string): (r: string)
    ensures |r| <= |s| && r == s[..|r|]
    ensures IsBlank(s[|r|..])
    ensures |r| > 0 ==> !IsSpace(r[|r| - 1])
  {
    if |s| > 0 && IsSpace(s[|s| - 1]) then TrimEnd(s[..|s| - 1]) else s
  }

  /** Number of leading white-space characters of `s`. */
  function LeadingSpace(s: string): nat
    ensures LeadingSpace(s) <= |s|
  {
    |s| - |TrimStart(s)|
  }

  /** `String.prototype.trim`: the longest slice of `s` that neither starts
      nor ends with white space, everything cut off being white space. */
  function Trim(s: string): (r: string)
    ensures LeadingSpace(s) + |r| <= |s|
    ensures r == s[LeadingSpace(s)..LeadingSpace(s) + |r|]
    ensures IsBlank(s[..LeadingSpace(s)]) && IsBlank(s[LeadingSpace(s) + |r|..])
    ensures |r| > 0 ==> !IsSpace(r[0]) && !IsSpace(r[|r| - 1])
  {
    var t := TrimStart(s);
    var r := TrimEnd(t);
    var k := |s| - |t|;
    assert r == s[k..k + |r|];
    assert s[k + |r|..] == t[|r|..];
    r
  }

  /** `!s.trim()` in the source: a string trims to empty exactly when it
      consists of white space only. */
  lemma TrimEmptyIffBlank(s: string)
    ensures Trim(s) == "" <==> IsBlank(s)
  {
    var r := Trim(s);
    var k := LeadingSpace(s);
    if r == "" {
      forall i | 0 <= i < |s|
        ensures IsSpace(s[i])
      {
        assert s[..k][i] == s[i];
      }
    } else {
      assert r[0] == s[k];
    }
  }
}

=== FILE: login.dfy ===
/** The login / sign-up modal: form validation, and what a submit does with
    the reply of the login or register endpoint. */
module LoginForm {
  import opened Js
  import opened AppModel
  import opened EmailSyntax
  import AppContext

  /** The modal's mode: the source's `'Login'` and `'Sign Up'` states. */
  datatype Mode = LoginMode | SignUpMode

  /** The keys of the error object. */
  datatype Field = EmailField | PasswordField | NameField

  datatype Form = Form(mode: Mode, name: string, email: string, password: string)

  const MinPasswordLength := 6

  /** The balance assumed when the server reports a user without credits. */
  const DefaultCredits := 20

  /** `validateForm`: one message per failing field. */
  function Validate(f: Form): (errors: map<Field, string>)
    ensures EmailField in errors <==> !EmailRegex(f.email)
    ensures PasswordField in errors <==> |f.password| < MinPasswordLength
    ensures NameField in errors <==> f.mode == SignUpMode && IsBlank(f.name)
  {
    ValidEmailMatchesRegex(f.email);
    TrimEmptyIffBlank(f.name);
    var withEmail := if !ValidEmail(f.email) then map[EmailField := "Please enter a valid email address"] else map[];
    var withPassword :=
      if |f.password| < MinPasswordLength then withEmail[PasswordField := "Password must be at least 6 characters long"]
      else withEmail;
    if f.mode == SignUpMode && Trim(f.name) == "" then withPassword[NameField := "Name is required"]
    else withPassword
  }

  /** `Object.keys(newErrors).length === 0`. */
  predicate IsValid(f: Form) {
    |Validate(f)| == 0
  }

  /** The form is valid exactly when the address matches the pattern, the
      password is long enough and, when signing up, the name is not blank;
      in login mode the name is never looked at. */
  lemma ValidIff(f: Form)
    ensures IsValid(f) <==>
      EmailRegex(f.email) && |f.password| >= MinPasswordLength && (f.mode == LoginMode || !IsBlank(f.name))
  {
    var errors := Validate(f);
    if |errors| == 0 {
      assert errors.Keys == {};
    } else {
      var k :| k in errors.Keys;
      match k
      case EmailField =>
      case PasswordField =>
      case NameField =>
    }
  }

  /** The balance taken from the user the server reports. */
  function CreditsFor(u: User): (c: int)
    ensures u.credits.Some? ==> c == u.credits.value
    ensures u.credits.None? ==> c == DefaultCredits
  {
    if u.credits.Some? then u.credits.value else DefaultCredits
  }

  /** The request a valid form sends. */
  function AuthRequest(f: Form): Request {
    match f.mode
    case LoginMode => PostLogin(f.email, f.password)
    case SignUpMode => PostRegister(f.name, f.email, f.password)
  }

  /** The reply the request of this mode receives. */
  function AuthReply(f: Form, srv: Backend): Reply<AuthBody> {
    match f.mode
    case LoginMode => srv.login
    case SignUpMode => srv.register
  }

  /** The submit reaches the server and the reply carries a token. */
  predicate TokenAccepted(f: Form, srv: Backend) {
    IsValid(f) && AuthReply(f, srv).Ok? && Truthy(AuthReply(f, srv).body.token)
  }

  /** The modal's errors, the context afterwards and the effects in order. */
  datatype Submitted = Submitted(errors: map<Field, string>, app: AppState, effects: seq<Effect>)

  /** Adopts an accepted session: token, user and balance, then closes the
      modal. */
  function Accept(app: AppState, token: string, user: Option<User>): AppState {
    var withUser := if user.Some? then app.(user := user, credit := CreditsFor(user.value)) else app;
    withUser.(token := token, showLogin := false)
  }

  /** `onSubmitHandler`. */
  function OnSubmit(f: Form, app: AppState, srv: Backend): (r: Submitted)
    ensures r.errors == Validate(f)
    ensures !IsValid(f) ==> r.app == app && NoRequest(r.effects)
    ensures IsValid(f) ==> |r.effects| > 0 && r.effects[0] == Send(AuthRequest(f))
    ensures TokenAccepted(f, srv) ==>
      var body := AuthReply(f, srv).body;
      && r.app.token == body.token.value
      && !r.app.showLogin
      && Store("token", body.token.value) in r.effects
      && (body.user.Some? ==> r.app.user == body.user && r.app.credit == CreditsFor(body.user.value))
      && (body.user.None? ==> r.app.user == app.user && r.app.credit == app.credit)
      && r.app == app.(token := r.app.token, user := r.app.user, credit := r.app.credit, showLogin := false)
    ensures !TokenAccepted(f, srv) ==>
      r.app == app && forall i :: 0 <= i < |r.effects| ==> !r.effects[i].Store?
    ensures TokenAccepted(f, srv) && f.mode == LoginMode ==>
      Schedule(GetSession) in r.effects && Schedule(GetCredits) in r.effects
  {
    var errors := Validate(f);
    if |errors| != 0 then Submitted(errors, app, [])
    else
      var sent := [Send(AuthRequest(f))];
      match AuthReply(f, srv)
      case Ok(body) =>
        if Truthy(body.token) then
          var later := if f.mode == LoginMode then [Schedule(GetSession), Schedule(GetCredits)] else [];
          Submitted(errors, Accept(app, body.token.value, body.user),
                    sent + [Store("token", body.token.value), Notify(Success)] + later)
        else Submitted(errors, app, sent)
      case Failed(_) => Submitted(errors, app, sent + [Notify(Error)])
  }

  /** The three replies that report a user's balance agree when the server
      includes `credits`: after a login that accepts the user (which takes
      `CreditsFor` of it), a session check or a generation the
      balance is the reported one. When the server leaves it out they part
      ways: login assumes 20, while the session check and a generation keep
      the balance they had and ask for it separately. */
  lemma ReportedCreditsAgree(f: Form, app: AppState, s: AppState, prompt: string, u: User, srv: Backend)
    requires srv.verify == Ok(Some(u))
    requires srv.generate.Ok? && Truthy(srv.generate.body.imageUrl) && srv.generate.body.user == Some(u)
    requires HasToken(s) && s.credit > 0
    ensures TokenAccepted(f, srv) && AuthReply(f, srv).body.user == Some(u) ==>
      OnSubmit(f, app, srv).app.credit == CreditsFor(u)
    ensures var verified := AppContext.VerifyUserSession(s, srv);
      var generated := AppContext.GenerateImage(s, prompt, srv);
      && (u.credits.Some? ==>
            CreditsFor(u) == u.credits.value && verified.state.credit == u.credits.value
            && generated.state.credit == u.credits.value)
      && (u.credits.None? ==>
            && CreditsFor(u) == DefaultCredits
            && verified.state.credit == s.credit && Send(GetCredits) in verified.effects
            && generated.state.credit == s.credit && Send(GetCredits) in generated.effects)
  {
  }
}

=== FILE: model.dfy ===
/** The client's shared state (the values an `AppContext` provider exposes),
    the records the backend sends, and the observable side effects of a
    transition. Backend replies are inputs: a `Backend` value fixes the reply
    each endpoint would give, and every remote action reads the reply of the
    endpoints it calls. */
module AppModel {
  import opened Js

  /** The user object the server returns with a session. */
  datatype User = User(name: Option<string>, email: Option<string>, credits: Option<int>)

  /** A favourite as the views use it. */
  datatype Favorite = Favorite(id: string, url: string, prompt: Option<string>, date: string)

  /** A generation-history entry as the views use it. */
  datatype HistoryItem = HistoryItem(id: string, image: string, prompt: Option<string>, date: string)

  /** A favourite or history record as the server sends it
      (`_id`, `imageUrl`, `prompt`, `createdAt`). */
  datatype ImageRecord = ImageRecord(recordId: string, imageUrl: string, prompt: Option<string>, createdAt: string)

  /** An image handed to `addToFavorites` or held as the current image. */
  datatype Image = Image(url: Option<string>, prompt: Option<string>)

  /** The provider's state. A token read back as `null` from storage and the
      empty token written by `logout` are both falsy and are both `""` here. */
  datatype AppState = AppState(
    user: Option<User>,
    showLogin: bool,
    token: string,
    credit: int,
    loading: bool,
    darkMode: bool,
    history: seq<HistoryItem>,
    favorites: seq<Favorite>,
    currentImage: Option<Image>,
    editingImage: bool)

  predicate HasToken(s: AppState) {
    |s.token| > 0
  }

  /** The requests the client sends to the backend. */
  datatype Request =
    | GetSession
    | GetCredits
    | GetFavorites
    | GetHistory
    | PostGeneration(prompt: string)
    | PostHistory(imageUrl: string, prompt: string)
    | PostFavorite(imageUrl: string, prompt: string)
    | DeleteFavorite(favoriteId: string)
    | PostLogin(email: string, password: string)
    | PostRegister(name: string, email: string, password: string)

  datatype Level = Info | Success | Warning | Error

  /** Observable side effects. `Send` is a request sent now; `Schedule` is a
      request sent later by a timer. */
  datatype Effect =
    | Send(request: Request)
    | Schedule(later: Request)
    | Navigate(path: string)
    | Store(key: string, value: string)
    | Unstore(key: string)
    | Notify(level: Level)
    | DarkClass(on: bool)

  /** No effect in the list contacts the backend, now or later. */
  predicate NoRequest(effects: seq<Effect>) {
    forall i :: 0 <= i < |effects| ==> !effects[i].Send? && !effects[i].Schedule?
  }

  /** Why a request failed: the abort signal fired, axios gave up
      (`ECONNABORTED`), the server answered with an error status, or no
      response arrived at all. */
  datatype Failure =
    | Aborted
    | ConnectionAborted
    | HttpError(status: int)
    | NoResponse

  datatype Reply<+T> = Ok(body: T) | Failed(failure: Failure)

  /** Body of `POST /api/images/generate-image`. */
  datatype GenerateBody = GenerateBody(imageUrl: Option<string>, user: Option<User>, creditIssue: bool)

  /** Body of `POST /api/users/favorites`: `favorite` says whether the record
      was created. */
  datatype AddFavoriteBody = AddFavoriteBody(favorite: bool)

  /** Body of the login and register endpoints. */
  datatype AuthBody = AuthBody(token: Option<string>, user: Option<User>)

  /** One reply per endpoint. A list endpoint's body may lack its list. */
  datatype Backend = Backend(
    verify: Reply<Option<User>>,
    credits: Reply<int>,
    favorites: Reply<Option<seq<ImageRecord>>>,
    history: Reply<Option<seq<ImageRecord>>>,
    generate: Reply<GenerateBody>,
    saveHistory: Reply<()>,
    addFavorite: Reply<AddFavoriteBody>,
    deleteFavorite: Reply<()>,
    login: Reply<AuthBody>,
    register: Reply<AuthBody>)

  /** The outcome of one transition: the new state, the effects in the order
      they happen, and the value the action returns. */
  datatype Step<+R> = Step(state: AppState, effects: seq<Effect>, value: R)
}

=== FILE: profile.dfy ===
/** The account-settings form: field edits, the password-change checks and
    the reset of the password fields after a save. Saving is local only;
    no request is sent. */
module ProfilePage {
  import opened Js
  import opened AppModel

  datatype ProfileForm = ProfileForm(
    name: string,
    email: string,
    currentPassword: string,
    newPassword: string,
    confirmPassword: string)

  /** The `name` attributes of the form's inputs. */
  datatype Field = Name | Email | CurrentPassword | NewPassword | ConfirmPassword

  const MinPasswordLength := 6

  /** The value of one input. */
  function Get(f: ProfileForm, field: Field): string {
    match field
    case Name => f.name
    case Email => f.email
    case CurrentPassword => f.currentPassword
    case NewPassword => f.newPassword
    case ConfirmPassword => f.confirmPassword
  }

  /** The form as first shown: `user?.name || ''`, `user?.email || ''` and
      empty password fields. */
  function InitialForm(user: Option<User>): (f: ProfileForm)
    ensures user.Some? && Truthy(user.value.name) ==> f.name == user.value.name.value
    ensures !(user.Some? && Truthy(user.value.name)) ==> f.name == ""
    ensures user.Some? && Truthy(user.value.email) ==> f.email == user.value.email.value
    ensures !(user.Some? && Truthy(user.value.email)) ==> f.email == ""
    ensures f.currentPassword == "" && f.newPassword == "" && f.confirmPassword == ""
  {
    var name := if user.Some? && Truthy(user.value.name) then user.value.name.value else "";
    var email := if user.Some? && Truthy(user.value.email) then user.value.email.value else "";
    ProfileForm(name, email, "", "", "")
  }

  /** `handleChange`: `{...formData, [e.target.name]: e.target.value}`. */
  function HandleChange(f: ProfileForm, field: Field, value: string): (r: ProfileForm)
    ensures Get(r, field) == value
    ensures forall other :: other != field ==> Get(r, other) == Get(f, other)
  {
    match field
    case Name => f.(name := value)
    case Email => f.(email := value)
    case CurrentPassword => f.(currentPassword := value)
    case NewPassword => f.(newPassword := value)
    case ConfirmPassword => f.(confirmPassword := value)
  }

  /** Setting a field to the value it already has changes nothing, and a
      later edit of the same field overrides an earlier one. */
  lemma ChangeOverrides(f: ProfileForm, field: Field, v1: string, v2: string)
    ensures HandleChange(f, field, Get(f, field)) == f
    ensures HandleChange(HandleChange(f, field, v1), field, v2) == HandleChange(f, field, v2)
  {
  }

  /** Blanks the three password fields and keeps name and e-mail. */
  function ResetPasswords(f: ProfileForm): (r: ProfileForm)
    ensures r.name == f.name && r.email == f.email
    ensures r.currentPassword == "" && r.newPassword == "" && r.confirmPassword == ""
  {
    f.(currentPassword := "", newPassword := "", confirmPassword := "")
  }

  lemma ResetIdempotent(f: ProfileForm)
    ensures ResetPasswords(ResetPasswords(f)) == ResetPasswords(f)
  {
  }

  /** The first password check that fails. */
  datatype Rejection = TooShort | Mismatch | MissingCurrent

  datatype Outcome = Rejected(reason: Rejection) | Saved(form: ProfileForm)

  /** `handleSubmit`: with a new password set, checks its length, then that
      it is confirmed, then that the current password is given; a rejected
      form is left as it is, a saved one has its password fields reset. */
  function HandleSubmit(f: ProfileForm): (o: Outcome)
    ensures f.newPassword == "" ==> o == Saved(ResetPasswords(f))
    ensures o == Rejected(TooShort) <==> f.newPassword != "" && |f.newPassword| < MinPasswordLength
    ensures o == Rejected(Mismatch) <==>
      f.newPassword != "" && |f.newPassword| >= MinPasswordLength && f.newPassword != f.confirmPassword
    ensures o == Rejected(MissingCurrent) <==>
      f.newPassword != "" && |f.newPassword| >= MinPasswordLength && f.newPassword == f.confirmPassword
      && f.currentPassword == ""
    ensures o.Saved? <==>
      f.newPassword == ""
      || (|f.newPassword| >= MinPasswordLength && f.newPassword == f.confirmPassword && f.currentPassword != "")
    ensures o.Saved? ==>
      && o.form.name == f.name && o.form.email == f.email
      && o.form.currentPassword == "" && o.form.newPassword == "" && o.form.confirmPassword == ""
  {
    if f.newPassword != "" && |f.newPassword| < MinPasswordLength then Rejected(TooShort)
    else if f.newPassword != "" && f.newPassword != f.confirmPassword then Rejected(Mismatch)
    else if f.newPassword != "" && f.currentPassword == "" then Rejected(MissingCurrent)
    else Saved(ResetPasswords(f))
  }

  /** A saved form submits again without complaint and stays as it is. */
  lemma SavedFormResubmits(f: ProfileForm)
    requires HandleSubmit(f).Saved?
    ensures HandleSubmit(HandleSubmit(f).form) == HandleSubmit(f)
  {
  }

  /** The form as first shown saves at once and unchanged, and so does it
      after only the name or the e-mail is edited: no password check can
      fire while the password fields are empty. */
  lemma UntouchedPasswordsSave(user: Option<User>, field: Field, value: string)
    requires field == Name || field == Email
    ensures HandleSubmit(InitialForm(user)) == Saved(InitialForm(user))
    ensures var edited := HandleChange(InitialForm(user), field, value);
      HandleSubmit(edited) == Saved(edited)
  {
  }
}

=== FILE: result.dfy ===
/** The generation page: the guard chain in front of a generation request,
    the choice of prompt, the auto-generation triggered by a `prompt` query
    parameter, and the image collection cached in local storage. */
module ResultPage {
  import opened Js
  import opened AppModel
  import AppContext

  /** The page's own state. */
  datatype View = View(image: string, isImageLoaded: bool, loading: bool, error: bool, input: string)

  /** An entry of the collection cached under the `collection` storage key;
      `id` is the clock reading in milliseconds, `date` its ISO rendering. */
  datatype Entry = Entry(id: int, imageUrl: string, prompt: string, date: string)

  /** The clock reading a new entry is stamped with. */
  datatype Clock = Clock(millis: int, iso: string)

  /** The page, the shared context and the stored collection. */
  datatype Page = Page(view: View, app: AppState, collection: seq<Entry>)

  /** Size estimate above which older entries are dropped before saving. */
  const SizeThreshold := 4000000

  /** The storage key of the collection. */
  const CollectionKey := "collection"

  /** `JSON.stringify(collection).length`. */
  function EstimatedSize(c: seq<Entry>, serialize: seq<Entry> -> string): nat {
    |serialize(c)|
  }

  /** How many existing entries survive a trim. */
  const MaxKept := 10

  // ---------------------------------------------------------------------
  // Submit

  /** The first guard of `handleSubmit` that fails, or the prompt to use. */
  datatype Gate = Busy | NeedsLogin | NoCredit | EmptyPrompt | Proceed(prompt: string)

  /** `promptOverride || input`. */
  function FinalPrompt(promptOverride: Option<string>, input: string): string {
    if Truthy(promptOverride) then promptOverride.value else input
  }

  /** The guards of `handleSubmit`, in order: a generation already running,
      no user, no credit, a prompt that is blank once trimmed. */
  function CheckSubmit(loading: bool, user: Option<User>, credit: int, input: string,
                       promptOverride: Option<string>): (g: Gate)
    ensures g == Busy <==> loading
    ensures g == NeedsLogin <==> !loading && user.None?
    ensures g == NoCredit <==> !loading && user.Some? && credit <= 0
    ensures g == EmptyPrompt <==>
      !loading && user.Some? && credit > 0 && IsBlank(FinalPrompt(promptOverride, input))
    ensures g.Proceed? ==> !IsBlank(g.prompt)
    ensures g.Proceed? && Truthy(promptOverride) ==> g.prompt == promptOverride.value
    ensures g.Proceed? && !Truthy(promptOverride) ==> g.prompt == input
  {
    if loading then Busy
    else if user.None? then NeedsLogin
    else if credit <= 0 then NoCredit
    else
      var p := FinalPrompt(promptOverride, input);
      TrimEmptyIffBlank(p);
      if Trim(p) == "" then EmptyPrompt else Proceed(p)
  }

  /** What a submit did: the page afterwards and the effects in order. */
  datatype Submitted = Submitted(page: Page, effects: seq<Effect>)

  /** `handleSubmit(e, promptOverride)`. `serialize` stands for
      `JSON.stringify` on a collection and `storageAccepts` says whether local
      storage takes the updated collection. */
  function HandleSubmit(p: Page, promptOverride: Option<string>, srv: Backend, clock: Clock,
                        serialize: seq<Entry> -> string, storageAccepts: bool): (r: Submitted)
    ensures var g := CheckSubmit(p.view.loading, p.app.user, p.app.credit, p.view.input, promptOverride);
      !g.Proceed? ==>
        && NoRequest(r.effects)
        && r.page.view == p.view
        && r.page.collection == p.collection
        && r.page.app == (if g == NeedsLogin then p.app.(showLogin := true) else p.app)
    ensures var g := CheckSubmit(p.view.loading, p.app.user, p.app.credit, p.view.input, promptOverride);
      g.Proceed? ==>
        var gen := AppContext.GenerateImage(p.app, g.prompt, srv);
        && !r.page.view.loading
        && |gen.effects| <= |r.effects| && r.effects[..|gen.effects|] == gen.effects
        && (gen.value.Some? ==>
              && r.page.view.image == gen.value.value
              && r.page.view.isImageLoaded && !r.page.view.error
              && r.page.app.currentImage == Some(Image(gen.value, Some(g.prompt)))
              && r.page.collection == (if storageAccepts
                                       then SaveToCollection(p.collection, Entry(clock.millis, gen.value.value, g.prompt, clock.iso), serialize)
                                       else p.collection))
        && (gen.value.None? ==> r.page.view.error && r.page.collection == p.collection
                                && r.page.app == gen.state)
    ensures var g := CheckSubmit(p.view.loading, p.app.user, p.app.credit, p.view.input, promptOverride);
      g.Proceed? ==>
        var gen := AppContext.GenerateImage(p.app, g.prompt, srv);
        && (gen.value.Some? ==>
              && r.page.app == gen.state
              && r.page.view == p.view.(loading := false, error := false, isImageLoaded := true, image := gen.value.value))
        && (gen.value.None? ==> r.page.view == p.view.(loading := false, error := true))
  {
    match CheckSubmit(p.view.loading, p.app.user, p.app.credit, p.view.input, promptOverride)
    case Busy => Submitted(p, [Notify(Info)])
    case NeedsLogin => Submitted(p.(app := p.app.(showLogin := true)), [Notify(Warning)])
    case NoCredit => Submitted(p, [Notify(Error)])
    case EmptyPrompt => Submitted(p, [Notify(Error)])
    case Proceed(prompt) =>
      Generated(p, prompt, AppContext.GenerateImage(p.app, prompt, srv), clock, serialize, storageAccepts)
  }

  /** The part of `handleSubmit` after the guards, given what
      `generateImage(prompt)` did. */
  function Generated(p: Page, prompt: string, gen: Step<Option<string>>, clock: Clock,
                     serialize: seq<Entry> -> string, storageAccepts: bool): (r: Submitted)
    ensures !r.page.view.loading
    ensures |gen.effects| <= |r.effects| && r.effects[..|gen.effects|] == gen.effects
    ensures gen.value.Some? ==>
      && r.page.view.image == gen.value.value
      && r.page.view.isImageLoaded && !r.page.view.error
      && r.page.app.currentImage == Some(Image(gen.value, Some(prompt)))
      && r.page.collection == (if storageAccepts
                               then SaveToCollection(p.collection, Entry(clock.millis, gen.value.value, prompt, clock.iso), serialize)
                               else p.collection)
    ensures gen.value.None? ==> r.page.view.error && r.page.collection == p.collection && r.page.app == gen.state
    ensures gen.value.Some? ==>
      && r.page.app == gen.state.(currentImage := Some(Image(gen.value, Some(prompt))))
      && r.page.view == p.view.(loading := false, error := false, isImageLoaded := true, image := gen.value.value)
    ensures gen.value.None? ==> r.page.view == p.view.(loading := false, error := true)
    ensures var own := r.effects[|gen.effects|..];
      && NoRequest(own)
      && (gen.value.Some? ==>
            && (Store(CollectionKey, serialize(r.page.collection)) in own <==> storageAccepts)
            && (Notify(Info) in own <==> EstimatedSize(p.collection, serialize) > SizeThreshold))
      && (gen.value.None? ==> forall i :: 0 <= i < |own| ==> !own[i].Store?)
  {
    if gen.value.Some? then
      var url := gen.value.value;
      var view := p.view.(loading := false, error := false, isImageLoaded := true, image := url);
      var app := gen.state.(currentImage := Some(Image(Some(url), Some(prompt))));
      var saved := SaveToCollection(p.collection, Entry(clock.millis, url, prompt, clock.iso), serialize);
      var own := [Notify(Success)] + SaveEffects(p.collection, saved, serialize, storageAccepts);
      assert (gen.effects + own)[|gen.effects|..] == own;
      Submitted(Page(view, app, if storageAccepts then saved else p.collection), gen.effects + own)
    else
      assert (gen.effects + [Notify(Error)])[|gen.effects|..] == [Notify(Error)];
      Submitted(Page(p.view.(loading := false, error := true), gen.state, p.collection),
                gen.effects + [Notify(Error)])
  }

  // ---------------------------------------------------------------------
  // Local collection

  /** `while (existingCollection.length > 10) existingCollection.shift()`:
      the newest `MaxKept` entries, oldest first. */
  function DropOldest(c: seq<Entry>): (r: seq<Entry>)
    ensures r == c[|c| - Min(|c|, MaxKept)..]
  {
    if |c| > MaxKept then DropOldest(c[1..]) else c
  }

  /** The effects of `saveToCollection`: a notice when the size estimate
      passes the threshold, then the write of the updated collection, or a
      warning when storage refuses it. */
  function SaveEffects(existing: seq<Entry>, updated: seq<Entry>, serialize: seq<Entry> -> string,
                       storageAccepts: bool): (e: seq<Effect>)
    ensures NoRequest(e)
    ensures Store(CollectionKey, serialize(updated)) in e <==> storageAccepts
    ensures Notify(Info) in e <==> EstimatedSize(existing, serialize) > SizeThreshold
    ensures forall i :: 0 <= i < |e| && e[i].Store? ==> e[i] == Store(CollectionKey, serialize(updated))
  {
    var trimmed := if EstimatedSize(existing, serialize) > SizeThreshold then [Notify(Info)] else [];
    trimmed + (if storageAccepts then [Store(CollectionKey, serialize(updated))] else [Notify(Warning)])
  }

  /** `saveToCollection(prompt, imageUrl)` on the parsed collection: trims
      the collection when its size estimate passes the threshold, then
      appends the new entry. */
  function SaveToCollection(existing: seq<Entry>, entry: Entry, serialize: seq<Entry> -> string): (r: seq<Entry>)
    ensures |r| > 0 && r[|r| - 1] == entry
    ensures EstimatedSize(existing, serialize) <= SizeThreshold ==> r[..|r| - 1] == existing
    ensures EstimatedSize(existing, serialize) > SizeThreshold ==>
      r[..|r| - 1] == existing[|existing| - Min(|existing|, MaxKept)..] && |r| <= MaxKept + 1
  {
    var kept := if EstimatedSize(existing, serialize) > SizeThreshold then DropOldest(existing) else existing;
    assert (kept + [entry])[..|kept|] == kept;
    kept + [entry]
  }

  /** Whatever the size estimate, every entry kept is one of the existing
      entries, and the order among them is the order they were saved in. */
  lemma SavedCollectionKeepsOrder(existing: seq<Entry>, entry: Entry, serialize: seq<Entry> -> string)
    ensures var r := SaveToCollection(existing, entry, serialize);
      exists k :: 0 <= k <= |existing| && r == existing[k..] + [entry]
  {
    var r := SaveToCollection(existing, entry, serialize);
    var k := if EstimatedSize(existing, serialize) > SizeThreshold then |existing| - Min(|existing|, MaxKept) else 0;
    assert r == r[..|r| - 1] + [entry];
    assert r == existing[k..] + [entry];
  }

  // ---------------------------------------------------------------------
  // Prompt in the URL

  /** What the page does whenever the query string, the user or the balance
      changes while a `prompt` query parameter is present. */
  datatype UrlAction = Ignore | Fill(prompt: string) | FillAndGenerate(prompt: string)

  /** A truthy `prompt` parameter fills the input; it also starts a
      generation when a user is signed in with credit left. */
  function OnUrlPrompt(queryPrompt: Option<string>, user: Option<User>, credit: int): (a: UrlAction)
    ensures a == Ignore <==> !Truthy(queryPrompt)
    ensures a.FillAndGenerate? <==> Truthy(queryPrompt) && user.Some? && credit > 0
    ensures !a.Ignore? ==> a.prompt == queryPrompt.value
  {
    if !Truthy(queryPrompt) then Ignore
    else if user.Some? && credit > 0 then FillAndGenerate(queryPrompt.value)
    else Fill(queryPrompt.value)
  }

  /** An auto-generation is never stopped by the login or the credit guard
      of `handleSubmit`; when no generation is running and the prompt is not
      blank it proceeds with the URL's prompt. */
  lemma AutoGeneratePassesGuards(queryPrompt: Option<string>, user: Option<User>, credit: int,
                                 loading: bool, input: string)
    requires OnUrlPrompt(queryPrompt, user, credit).FillAndGenerate?
    ensures CheckSubmit(loading, user, credit, input, queryPrompt) != NeedsLogin
    ensures CheckSubmit(loading, user, credit, input, queryPrompt) != NoCredit
    ensures !loading && !IsBlank(queryPrompt.value) ==>
      CheckSubmit(loading, user, credit, input, queryPrompt) == Proceed(queryPrompt.value)
  {
  }
}
